=== FILE: README.md ===
# Page state machines of the C.O.B.A front-end

This project models the submit/response logic of the five feature pages of the
C.O.B.A demo front-end. Each page collects text or one uploaded file, sends it to
an `/api/analyze-*` endpoint, and shows the string that comes back.

- **Document chat** (`src/app/chatbot/page.tsx`). State: a transcript of messages, the
  text box, at most one attached file, and the loading flag. It seeds a welcome
  message. Files over 10 MiB are refused. The typing handler drops an attached file,
  but the chat box is disabled while a file is attached. A send appends a user
  message, then calls the document or the text endpoint. When the call settles, an
  assistant message is appended.
- **Text chat** (`src/app/code-generation/page.tsx`). The same transcript discipline,
  text only. Replies are the response's `analysis` field.
- **Summarization** (`src/app/summarization/page.tsx`). A single-shot page: text or a
  file goes in, and one `summary` string replaces the previous one.
- **Sentiment analysis** and **named-entity recognition**
  (`src/app/sentimental-analysis/page.tsx`, `src/app/name-entity-recognition/page.tsx`).
  Text-only single-shot pages. Their handlers are identical apart from the endpoint,
  the response field and the apology text, so `TextAnalysis` models both with a
  `Config`.

Every page is an immutable `State` record, and every handler is a pure function
from state to state. Each asynchronous handler is split in two:

- `Begin` does everything before the `await`. On every page it checks the guard
  and captures the outgoing `Request`. On the two chat pages it also appends the
  user message and clears the text. The single-shot pages only set their loading
  flag there, so their `Begin` leaves the text as it was.
- `Complete(outcome)` does what happens when the call settles. The outcome is
  `Ok(ResponseData(summary, analysis))` or `Fail`.

The loading flag is not stored. It is "a request is in flight" (`inFlight.Some?`),
so the single-flight gate cannot drift from the captured request. JavaScript's
`!s.trim()` is `JsText.IsBlank`, built on the exact whitespace set that
`String.prototype.trim` strips (ECMA-262 sections 12.2 and 12.3).

Files:

- `foundation.dfy`: the modules `Options`, `JsText`, `Files` and `Api`.
- `transcript.dfy`: messages, seeding, alternation and counting.
- `chatbot.dfy`, `code_generation.dfy`, `summarization.dfy`, `text_analysis.dfy`:
  one page each; `text_analysis.dfy` covers two pages.

Three behaviours of the handlers that are easy to misread from the markup:

- The file picker is only marked `disabled` while the text is non-blank
  (`disabled={!!input.trim()}`, src/app/chatbot/page.tsx:349 and 366). The handler
  itself does not check the text: it attaches the file and clears the text, and
  that is what is modelled. In the other direction the chat box is
  `disabled={!!uploadedFile}` (src/app/chatbot/page.tsx:338), so the branch of
  `Chatbot.EditText` that drops an attached file is reachable through the handler
  only, not by typing on the page.
- Each chat helper (`analyzeText`, `analyzeDocument`) catches its own errors and
  returns its own apology, and reading a field of a missing body throws inside that
  `try`. So every failure yields the helper's apology, and the outer "something went
  wrong" text is never produced (`Chatbot.ReplyText`, `CodeGeneration.ReplyText`).
- A file picked while a chat send is in flight is attached. It is not part of that
  send, and the send's `finally` clears it (`Chatbot.FilePickedDuringFlightIsDropped`).

## Model

| member | source | states |
|---|---|---|
| `JsText.TrimStart` | src/app/chatbot/page.tsx:124 | the result is a suffix of the input that is empty or starts with a non-whitespace character |
| `JsText.TrimStartDropsWhitespace` | src/app/chatbot/page.tsx:124 | every character `trimStart` drops is whitespace or a line terminator |
| `JsText.TrimEnd` | src/app/chatbot/page.tsx:124 | the result is a prefix of the input that is empty or ends with a non-whitespace character |
| `JsText.TrimEndDropsWhitespace` | src/app/chatbot/page.tsx:124 | every character `trimEnd` drops is whitespace or a line terminator |
| `JsText.TrimStartEmpty` | src/app/chatbot/page.tsx:124 | trimming the front leaves nothing exactly when every character is whitespace |
| `JsText.BlankIffAllWhitespace` | src/app/chatbot/page.tsx:124 | `!input.trim()` holds exactly when the input consists only of whitespace and line terminators (both directions) |
| `JsText.IsBlank` | src/app/chatbot/page.tsx:124 | the empty text is blank (the full characterisation is `JsText.BlankIffAllWhitespace`) |
| `JsText.Decimal` | src/app/chatbot/page.tsx:403 | the rendering of a byte count is a non-empty numeral of digits with no leading zero |
| `JsText.DecimalRoundTrip` | src/app/chatbot/page.tsx:403 | reading a rendered numeral back gives the number |
| `Files.FormatFileSize` | src/app/chatbot/page.tsx:402-406 | unit is bytes iff size < 1024, KB iff 1024 <= size < 1048576, MB otherwise; the bytes label is exactly the shortest numeral followed by " bytes" and parses back to the size; KB and MB keep the size |
| `Files.Describe` | src/app/chatbot/page.tsx:132-136 | the descriptor keeps the file's name and type, and its size label is exactly `formatFileSize` of the size: so (by `Files.FormatFileSize`) it is in bytes below 1024, in KB below 1048576 and in MB from there, and a bytes label is exactly the numeral followed by " bytes" |
| `Files.LimitBoundary` | src/app/chatbot/page.tsx:183 | the 10 MiB limit is inclusive: a 10485760-byte file is within it and a 10485761-byte file is not |
| `Files.SizeLabelExamples` | src/app/chatbot/page.tsx:402-406 | 512 gives "512 bytes", 2048 falls in KB, 5242880 falls in MB |
| `Api.Dispatch` | src/app/chatbot/page.tsx:152-156 | the payload is multipart exactly when a file is attached; a file goes to /api/analyze-document, otherwise the raw text goes to /api/analyze-text |
| `Api.Resolve` | src/app/summarization/page.tsx:58-69 | a settled call yields the field the page reads on success and the page's apology on failure |
| `Transcript.Seed` | src/app/chatbot/page.tsx:83-94 | an empty list becomes exactly one assistant message with id "welcome" and the welcome text; a non-empty list is kept, and the old list is a prefix of the result |
| `Transcript.SeedIdempotent` | src/app/code-generation/page.tsx:60-70 | seeding twice equals seeding once |
| `Transcript.CountRole` | src/app/chatbot/page.tsx:141 | a role count never exceeds the transcript length |
| `Transcript.CountRoleAppend` | src/app/chatbot/page.tsx:163 | appending a message increases its role's count by one and leaves the other count unchanged |
| `Transcript.AlternatingLength` | src/app/chatbot/page.tsx:141-163 | an alternating transcript has twice as many messages as user messages, plus one when it ends with an assistant reply |
| `Transcript.AppendAlternating` | src/app/chatbot/page.tsx:141-163 | appending the role due at the next position keeps the transcript alternating |
| `Transcript.AppendTextOnly` | src/app/code-generation/page.tsx:85-107 | appending a message without attachments keeps a transcript free of attachments |
| `Chatbot.SeedWelcome` | src/app/chatbot/page.tsx:83-94 | the mount effect changes only the message list, and only by seeding it |
| `Chatbot.Open` | src/app/chatbot/page.tsx:45-48 | the mounted page holds exactly the welcome message, is idle, has no text and no file, and is valid |
| `Chatbot.EditText` | src/app/chatbot/page.tsx:206-212 | the text becomes the typed value; the file is removed iff the value is non-empty; transcript and gate are unchanged |
| `Chatbot.PickFile` | src/app/chatbot/page.tsx:180-190 | the state is unchanged iff nothing was picked, the file exceeds 10 MiB, or it is already attached with empty text; an accepted file is attached and clears the text |
| `Chatbot.RemoveFile` | src/app/chatbot/page.tsx:199-204 | the file is gone and nothing else changes |
| `Chatbot.UserMessage` | src/app/chatbot/page.tsx:126-139 | a user message holding the raw text, with an attachment list present exactly when a file is attached, holding that one file's descriptor |
| `Chatbot.Begin` | src/app/chatbot/page.tsx:123-156 | inert when the text is blank with no file, or a call is in flight; otherwise one user message is appended with the untrimmed text and an attachment list present iff a file is attached, holding that file's name, size label and type; the text is cleared; the request goes to the document endpoint with the file, else to the text endpoint with the raw text |
| `Chatbot.ReplyText` | src/app/chatbot/page.tsx:96-121 | success gives the response's `summary`; failure gives the apology of the helper that was called, and never the generic apology |
| `Chatbot.Complete` | src/app/chatbot/page.tsx:158-177 | exactly one assistant message is appended, after every earlier message; it holds the reply text; the gate reopens and the file is cleared whatever the outcome; the text box is untouched |
| `Chatbot.StepKeepsValid` | src/app/chatbot/page.tsx:123-212 | every handler keeps the invariant: welcome first, alternating roles, a trailing user message exactly while busy, never text and a file together |
| `Chatbot.SendKeepsValid` | src/app/chatbot/page.tsx:123-156 | an accepted send keeps the invariant |
| `Chatbot.SettleKeepsValid` | src/app/chatbot/page.tsx:158-177 | a settling call keeps the invariant |
| `Chatbot.RunKeepsValid` | src/app/chatbot/page.tsx:123-212 | any sequence of events keeps the invariant |
| `Chatbot.StepOnlyAppends` | src/app/chatbot/page.tsx:141-170 | no single handler edits or removes an earlier message |
| `Chatbot.RunOnlyAppends` | src/app/chatbot/page.tsx:141-170 | after any events the earlier transcript is a prefix of the later one |
| `Chatbot.TranscriptShape` | src/app/chatbot/page.tsx:141-170 | an idle valid page holding N user messages has 1 + 2N messages ending with an assistant reply; a busy one has 2N, ending with the unanswered user message |
| `Chatbot.StepCountsSend` | src/app/chatbot/page.tsx:141 | a handler adds a user message exactly when it is a send that gets past the guard; mounting and the reply appends at lines 163 and 170 add none |
| `Chatbot.UsersAreSends` | src/app/chatbot/page.tsx:123-141 | over any events, the user messages added are exactly the accepted sends |
| `Chatbot.ShapeFromOpen` | src/app/chatbot/page.tsx:83-170 | from mount, after any events with N accepted sends, an idle page shows 1 + 2N messages and a busy one 2N |
| `Chatbot.FromOpen` | src/app/chatbot/page.tsx:83-94 | every state reachable after mounting is valid and still starts with the welcome message |
| `Chatbot.BeginInertIffRefused` | src/app/chatbot/page.tsx:124 | a send leaves the page unchanged exactly when its guard (blank text and no file, or a call in flight) turns it away |
| `Chatbot.SendThenReply` | src/app/chatbot/page.tsx:123-177 | an accepted send followed by its settlement adds exactly the user message and the reply, and leaves the page idle with no text and no file |
| `Chatbot.HelloScenario` | src/app/chatbot/page.tsx:152-163 | "Hello" is posted to /api/analyze-text, and a summary "Hi there" becomes the last assistant message |
| `Chatbot.FailedDocumentScenario` | src/app/chatbot/page.tsx:126-177 | a 2 MiB report.pdf is posted as multipart to the document endpoint with an MB size label; after a failure the document apology is the last message, the gate is open and the file is cleared |
| `Chatbot.FilePickedDuringFlightIsDropped` | src/app/chatbot/page.tsx:171-190 | a file picked while busy is attached but is cleared when the pending send settles |
| `CodeGeneration.SeedWelcome` | src/app/code-generation/page.tsx:60-70 | the mount effect changes only the message list, and only by seeding it |
| `CodeGeneration.Open` | src/app/code-generation/page.tsx:24-26 | the mounted page holds exactly the welcome message, is idle and valid |
| `CodeGeneration.EditText` | src/app/code-generation/page.tsx:196 | the text becomes the typed value and nothing else changes |
| `CodeGeneration.RequestFor` | src/app/code-generation/page.tsx:72-75 | the text is posted raw as JSON to /api/analyze-text |
| `CodeGeneration.Begin` | src/app/code-generation/page.tsx:82-100 | inert iff the text is blank or a call is in flight; otherwise one user message holding the raw text is appended, the text is cleared, and the raw text is posted to /api/analyze-text |
| `CodeGeneration.ReplyText` | src/app/code-generation/page.tsx:72-80 | success gives the response's `analysis`; failure gives the text apology, never the generic one |
| `CodeGeneration.Complete` | src/app/code-generation/page.tsx:99-117 | exactly one assistant message is appended, holding `analysis` or the apology; the gate reopens whatever the outcome |
| `CodeGeneration.StepKeepsValid` | src/app/code-generation/page.tsx:82-118 | every handler keeps the invariant: welcome first, alternating roles, a trailing user message exactly while busy, no attachments |
| `CodeGeneration.SendKeepsValid` | src/app/code-generation/page.tsx:82-100 | an accepted send keeps the invariant |
| `CodeGeneration.SettleKeepsValid` | src/app/code-generation/page.tsx:99-117 | a settling call keeps the invariant |
| `CodeGeneration.RunKeepsValid` | src/app/code-generation/page.tsx:82-118 | any sequence of events keeps the invariant |
| `CodeGeneration.RunOnlyAppends` | src/app/code-generation/page.tsx:91-114 | after any events the earlier transcript is a prefix of the later one |
| `CodeGeneration.TranscriptShape` | src/app/code-generation/page.tsx:91-114 | an idle page after N sends has 1 + 2N messages ending with a reply |
| `CodeGeneration.FromOpen` | src/app/code-generation/page.tsx:60-70 | every state reachable after mounting is valid and starts with the welcome message |
| `Summarization.EditText` | src/app/summarization/page.tsx:126-133 | the text becomes the typed value and the file is removed even when the value is empty; gate and result are unchanged |
| `Summarization.PickFile` | src/app/summarization/page.tsx:75-85 | unchanged iff nothing picked, over 10 MiB, or already attached with empty text; an accepted file is attached and clears the text |
| `Summarization.RemoveFile` | src/app/summarization/page.tsx:96-101 | the file is gone and nothing else changes |
| `Summarization.Clear` | src/app/summarization/page.tsx:87-94 | text empty, no file, no result, so the input form is shown |
| `Summarization.Begin` | src/app/summarization/page.tsx:43-62 | inert iff the text is blank with no file, or busy; otherwise the file goes multipart to the document endpoint, else the raw text goes to the text endpoint, and text, file and result are left as they were |
| `Summarization.Complete` | src/app/summarization/page.tsx:58-72 | the result becomes the `summary` field on success or the fixed apology on failure (which is then shown); only the flag is reset, and text and file are kept |
| `Summarization.RunKeepsValid` | src/app/summarization/page.tsx:75-133 | no sequence of events ever holds text and a file together |
| `Summarization.ResultShownAfterSettle` | src/app/summarization/page.tsx:58-72 | once a call settles, the result view (`!summary` at src/app/summarization/page.tsx:108) is shown exactly when the stored string (the `summary` field, or the apology) is non-empty, so a failure is always shown |
| `Summarization.ResultShownOnSuccess` | src/app/summarization/page.tsx:108 | after a success the result view is shown iff the returned summary is non-empty |
| `TextAnalysis.ResultShownAfterSettle` | src/app/sentimental-analysis/page.tsx:36-47 | once a call settles, the result view (`!analysis` at line 59, the same test in src/app/name-entity-recognition/page.tsx) is shown exactly when the stored string is non-empty; after a success, exactly when the page's field of the response is non-empty |
| `TextAnalysis.EditText` | src/app/sentimental-analysis/page.tsx:77 | the text becomes the typed value and nothing else changes |
| `TextAnalysis.Clear` | src/app/name-entity-recognition/page.tsx:49-52 | text empty and no result, so the input form is shown |
| `TextAnalysis.Begin` | src/app/sentimental-analysis/page.tsx:31-37 | inert iff the text is blank or busy; otherwise the raw text is posted as JSON to the page's endpoint |
| `TextAnalysis.Complete` | src/app/name-entity-recognition/page.tsx:36-46 | the result becomes the page's field on success or its apology on failure; the gate reopens whatever the outcome |
| `TextAnalysis.SentimentRoundTrip` | src/app/sentimental-analysis/page.tsx:13-46 | the sentiment page posts the raw text to /api/analyze-sentiment, keeps `analysis`, and shows its apology on failure |
| `TextAnalysis.EntityRecognitionRoundTrip` | src/app/name-entity-recognition/page.tsx:13-46 | the entity page posts the raw text to /api/analyze-text, keeps `summary`, and shows its apology on failure |
| `TextAnalysis.RunKeepsValid` | src/app/sentimental-analysis/page.tsx:31-52 | after any events, a request in flight is always JSON text posted to the page's own endpoint |
| `TextAnalysis.SingleFlight` | src/app/sentimental-analysis/page.tsx:31-46 | while a call is in flight, no sequence of typing, clearing and further submits replaces the captured request |
| `TextAnalysis.NoWriteKeepsResult` | src/app/sentimental-analysis/page.tsx:36-52 | when no event clears or settles a call in flight, the result is the one the page started with |
| `TextAnalysis.LastWriteDecides` | src/app/sentimental-analysis/page.tsx:36-52 | the result is what the last clear (`None`) or last settling call (its field or apology) stored |
| `TextAnalysis.ResultIsLastWrite` | src/app/name-entity-recognition/page.tsx:36-52 | for any events: with no write the result is the initial one, and otherwise it is the value of the last write |
| `TextAnalysis.ResultNeedsSettle` | src/app/name-entity-recognition/page.tsx:36-46 | without a settling call, a page that held no result still holds none |

## Left out

- HTTP calls through axios: the result of a call is the `Outcome` passed to `Complete`. A `Fail` stands for any thrown error: network, non-2xx, or reading a field of a missing body.
- A response body that lacks the field the page reads: JavaScript would store `undefined`. `ResponseData` always carries both fields as strings.
- `console.error` and `alert`: diagnostic output only. A refused file leaves the state unchanged.
- Rendering, animations, the loading indicator, textarea auto-resize and the scroll-to-bottom heuristic: these depend on the DOM.
- Message ids: the user and reply ids come from `Date.now()`. They are parameters of `Begin` and `Complete`, and the model claims no uniqueness for them.
- JsText.TrimStart: its contract gives the shape of the result; that the dropped prefix is whitespace is the companion lemma `TrimStartDropsWhitespace`, since as a postcondition that quantifier is instantiated at every trim and makes each page's guard proofs far more expensive.
- JsText.TrimEnd: likewise, the dropped suffix being whitespace is `TrimEndDropsWhitespace`.
- JsText.IsBlank: its contract states only that the empty text is blank; "blank exactly when all whitespace" is `BlankIffAllWhitespace`, for the same reason.
- Files.FormatFileSize: the KB and MB branches keep the byte count rather than the one-decimal text, because `toFixed(1)` works on floating-point division.
- Asynchronous `setState` batching and the event loop: each handler is one atomic transition. The text a send posts is the value captured when the send began, as the source's closure does.
- Unmounting while a call is in flight: the page state is discarded, so there is nothing to model.
- Browser-enforced controls: the `disabled` attributes and the picker's `accept` filter. Only the handlers' own guards are modelled.
- Enter-to-send (`handleKeyDown`): it calls the send handler, which is the `Send` event. Shift+Enter is ordinary text editing.
- The Download buttons: they have no handler.
- The marketing, navigation and loading components, and the home page: they are static markup.

=== FILE: chatbot.dfy ===
/**
 * The document/Q&A chat page (`src/app/chatbot/page.tsx`): a transcript,
 * a text box, at most one attached file, and one request in flight at a
 * time. Each handler is one atomic transition; the asynchronous send is
 * split into `Begin` (everything before the `await`) and `Complete` (what
 * happens when the call settles).
 */
module Chatbot {
  import opened Options
  import opened JsText
  import opened Files
  import opened Api
  import opened Transcript

  const WelcomeText: string := "\U{1F44B} Hello! I'm C.O.B.A Upload a document OR paste text to get started."
  const DocumentApology: string := "Sorry, I couldn't analyze that document. Please try again."

  /**
   * `inFlight` is the request the pending send captured; the page's
   * `isLoading` flag is exactly "a request is in flight".
   */
  datatype State = State(messages: seq<Message>, input: string, file: Option<File>, inFlight: Option<Request>) {
    predicate Busy() {
      inFlight.Some?
    }
  }

  /** The state at first render, before the mount effect runs. */
  function Fresh(): State {
    State([], "", None, None)
  }

  /** The welcome-seeding mount effect. */
  function SeedWelcome(s: State): (r: State)
    ensures r.messages == Seed(s.messages, WelcomeText)
    ensures r.input == s.input && r.file == s.file && r.inFlight == s.inFlight
  {
    s.(messages := Seed(s.messages, WelcomeText))
  }

  /** The page once mounted: just the welcome message, idle, nothing typed or attached. */
  function Open(): (s: State)
    ensures |s.messages| == 1 && s.messages[0].id == WelcomeId && s.messages[0].role == Assistant
    ensures s.messages[0].content == WelcomeText
    ensures !s.Busy() && s.input == "" && s.file.None?
    ensures Valid(s)
  {
    SeedWelcome(Fresh())
  }

  /** `handleTextInputChange`: typing anything non-empty drops the attached file. */
  function EditText(s: State, value: string): (r: State)
    ensures r.input == value
    ensures r.file == (if value != "" then None else s.file)
    ensures r.messages == s.messages && r.inFlight == s.inFlight
  {
    var typed := s.(input := value);
    if s.file.Some? && value != "" then RemoveFile(typed) else typed
  }

  /**
   * `handleFileUpload`: `picked` is `e.target.files?.[0]`. Nothing picked
   * changes nothing; an oversized file is refused (after an alert) and
   * changes nothing; otherwise the file is attached and the text cleared.
   */
  function PickFile(s: State, picked: Option<File>): (r: State)
    ensures r == s <==> picked.None? || !WithinLimit(picked.value) || (s.file == picked && s.input == "")
    ensures picked.Some? && WithinLimit(picked.value) ==> r.file == picked && r.input == ""
    ensures r.messages == s.messages && r.inFlight == s.inFlight
  {
    match picked
    case None => s
    case Some(f) => if !WithinLimit(f) then s else s.(file := Some(f), input := "")
  }

  /** `removeUploadedFile` */
  function RemoveFile(s: State): (r: State)
    ensures r.file.None?
    ensures r.messages == s.messages && r.input == s.input && r.inFlight == s.inFlight
  {
    s.(file := None)
  }

  /** The guard of `handleSendMessage`: something to send and nothing in flight. */
  predicate CanSend(s: State) {
    (!IsBlank(s.input) || s.file.Some?) && !s.Busy()
  }

  /** The message a send appends: the raw text, and the descriptor of the attached file if there is one. */
  function UserMessage(id: string, input: string, file: Option<File>): (m: Message)
    ensures m.id == id && m.role == User && m.content == input
    ensures m.attachments.Some? <==> file.Some?
    ensures file.Some? ==> |m.attachments.value| == 1 && m.attachments.value[0] == Describe(file.value)
  {
    Message(id, input, User, if file.Some? then Some([Describe(file.value)]) else None)
  }

  /**
   * The synchronous part of `handleSendMessage`: append the user message,
   * clear the text, and start the call. Refused sends leave the state as it is.
   */
  function Begin(s: State, id: string): (r: State)
    ensures !CanSend(s) ==> r == s
    ensures CanSend(s) ==>
      && |r.messages| == |s.messages| + 1
      && s.messages <= r.messages
      && r.messages[|s.messages|].id == id
      && r.messages[|s.messages|].role == User
      && r.messages[|s.messages|].content == s.input
      && (r.messages[|s.messages|].attachments.Some? <==> s.file.Some?)
      && (s.file.Some? ==> r.messages[|s.messages|].attachments == Some([Describe(s.file.value)]))
    ensures CanSend(s) ==> r.Busy() && r.input == "" && r.file == s.file
    ensures CanSend(s) && s.file.Some? ==> r.inFlight == Some(Request(AnalyzeDocument, Multipart(s.file.value)))
    ensures CanSend(s) && s.file.None? ==> r.inFlight == Some(Request(AnalyzeText, JsonText(s.input)))
  {
    if !CanSend(s) then s
    else
      State(s.messages + [UserMessage(id, s.input, s.file)], "", s.file, Some(Dispatch(s.input, s.file)))
  }

  /**
   * The text of the reply to a request: the response's `summary`, or the
   * apology of the helper (`analyzeText` or `analyzeDocument`) that caught the error.
   */
  function ReplyText(request: Request, outcome: Outcome): (t: string)
    ensures outcome.Ok? ==> t == outcome.data.summary
    ensures outcome.Fail? && request.payload.Multipart? ==> t == DocumentApology
    ensures outcome.Fail? && request.payload.JsonText? ==> t == TextApology
    ensures outcome.Fail? ==> t != GenericApology
  {
    var apology := if request.payload.Multipart? then DocumentApology else TextApology;
    Resolve(outcome, Summary, apology)
  }

  /**
   * What happens when the pending call settles: one assistant message is
   * appended, the gate reopens and the attached file is cleared whatever the
   * outcome. The text box is left alone.
   */
  function Complete(s: State, outcome: Outcome, id: string): (r: State)
    requires s.Busy()
    ensures |r.messages| == |s.messages| + 1 && s.messages <= r.messages
    ensures r.messages[|s.messages|].id == id
    ensures r.messages[|s.messages|].role == Assistant
    ensures r.messages[|s.messages|].attachments.None?
    ensures outcome.Ok? ==> r.messages[|s.messages|].content == outcome.data.summary
    ensures outcome.Fail? ==> r.messages[|s.messages|].content
                              == (if s.inFlight.value.payload.Multipart? then DocumentApology else TextApology)
    ensures !r.Busy() && r.file.None? && r.input == s.input
  {
    var reply := Message(id, ReplyText(s.inFlight.value, outcome), Assistant, None);
    State(s.messages + [reply], s.input, None, None)
  }

  /**
   * What holds of every state the page reaches after mounting: the welcome
   * message first, roles alternating, a trailing user message exactly while a
   * request is in flight, and never text and a file at once.
   */
  predicate Valid(s: State) {
    && |s.messages| >= 1
    && s.messages[0] == WelcomeMessage(WelcomeText)
    && Alternating(s.messages)
    && (s.Busy() <==> s.messages[|s.messages| - 1].role == User)
    && (s.inFlight.Some? && s.inFlight.value.payload.Multipart? ==> s.inFlight.value.endpoint == AnalyzeDocument)
    && (s.inFlight.Some? && s.inFlight.value.payload.JsonText? ==> s.inFlight.value.endpoint == AnalyzeText)
    && (s.file.Some? ==> s.input == "")
  }

  /** The user actions and the settling of the call, as events. */
  datatype Event =
    | Mount
    | Type(value: string)
    | Pick(picked: Option<File>)
    | Unpick
    | Send(id: string)
    | Settle(outcome: Outcome, id: string)

  /** One event. A call can only settle while one is in flight, so `Settle` on an idle page is ignored. */
  function Step(s: State, e: Event): State {
    match e
    case Mount => SeedWelcome(s)
    case Type(value) => EditText(s, value)
    case Pick(picked) => PickFile(s, picked)
    case Unpick => RemoveFile(s)
    case Send(id) => Begin(s, id)
    case Settle(outcome, id) => if s.Busy() then Complete(s, outcome, id) else s
  }

  function Run(s: State, events: seq<Event>): State
    decreases |events|
  {
    if |events| == 0 then s else Run(Step(s, events[0]), events[1..])
  }

  lemma StepKeepsValid(s: State, e: Event)
    requires Valid(s)
    ensures Valid(Step(s, e))
  {
    match e
    case Send(id) =>
      if CanSend(s) {
        SendKeepsValid(s, id);
      }
    case Settle(outcome, id) =>
      if s.Busy() {
        SettleKeepsValid(s, outcome, id);
      }
    case _ =>
  }

  lemma SendKeepsValid(s: State, id: string)
    requires Valid(s) && CanSend(s)
    ensures Valid(Begin(s, id))
  {
    AppendUserKeepsValid(s, UserMessage(id, s.input, s.file));
  }

  /** The state an accepted send produces is valid: the new user message answers the welcome or the last reply. */
  lemma AppendUserKeepsValid(s: State, m: Message)
    requires Valid(s) && !s.Busy() && m.role == User
    ensures Valid(State(s.messages + [m], "", s.file, Some(Dispatch(s.input, s.file))))
  {
    var r := State(s.messages + [m], "", s.file, Some(Dispatch(s.input, s.file)));
    NextRole(|s.messages| - 1);
    assert RoleAt(|s.messages|) == User;
    AppendAlternating(s.messages, m);
    assert r.messages[0] == s.messages[0];
  }

  lemma SettleKeepsValid(s: State, outcome: Outcome, id: string)
    requires Valid(s) && s.Busy()
    ensures Valid(Complete(s, outcome, id))
  {
    var m := Message(id, ReplyText(s.inFlight.value, outcome), Assistant, None);
    NextRole(|s.messages| - 1);
    assert RoleAt(|s.messages|) == Assistant;
    AppendAlternating(s.messages, m);
  }

  /** Every state reachable from a valid one by any events is valid. */
  lemma {:induction false} RunKeepsValid(s: State, events: seq<Event>)
    requires Valid(s)
    ensures Valid(Run(s, events))
    decreases |events|
  {
    if |events| > 0 {
      StepKeepsValid(s, events[0]);
      RunKeepsValid(Step(s, events[0]), events[1..]);
    }
  }

  /** No single event edits or removes an earlier message. */
  lemma StepOnlyAppends(s: State, e: Event)
    ensures s.messages <= Step(s, e).messages
  {
    match e
    case Settle(outcome, id) =>
      if s.Busy() {
        assert s.messages <= Complete(s, outcome, id).messages;
      }
    case _ =>
  }

  /** The transcript only grows by appending: no event edits or removes an earlier message. */
  lemma {:induction false} RunOnlyAppends(s: State, events: seq<Event>)
    ensures s.messages <= Run(s, events).messages
    decreases |events|
  {
    if |events| > 0 {
      StepOnlyAppends(s, events[0]);
      RunOnlyAppends(Step(s, events[0]), events[1..]);
    }
  }

  /**
   * An idle page that has seen N sends shows 1 + 2N messages, ending with
   * an assistant reply; a busy one ends with the unanswered user message.
   */
  lemma TranscriptShape(s: State)
    requires Valid(s)
    ensures !s.Busy() ==> |s.messages| == 1 + 2 * CountRole(s.messages, User)
                          && s.messages[|s.messages| - 1].role == Assistant
    ensures s.Busy() ==> |s.messages| == 2 * CountRole(s.messages, User)
                         && s.messages[|s.messages| - 1].role == User
  {
    AlternatingLength(s.messages);
  }

  /** The number of `Send` events that get past the guard when `events` run from `s`. */
  function AcceptedSends(s: State, events: seq<Event>): nat
    decreases |events|
  {
    if |events| == 0 then 0
    else (if events[0].Send? && CanSend(s) then 1 else 0) + AcceptedSends(Step(s, events[0]), events[1..])
  }

  /** Only an accepted send adds a user message; every other event leaves the user count alone. */
  lemma StepCountsSend(s: State, e: Event)
    ensures CountRole(Step(s, e).messages, User)
            == CountRole(s.messages, User) + (if e.Send? && CanSend(s) then 1 else 0)
  {
    match e
    case Mount =>
      if |s.messages| == 0 {
        CountRoleAppend([], WelcomeMessage(WelcomeText), User);
        assert [] + [WelcomeMessage(WelcomeText)] == Step(s, e).messages;
      }
    case Send(id) =>
      if CanSend(s) {
        CountRoleAppend(s.messages, UserMessage(id, s.input, s.file), User);
      }
    case Settle(outcome, id) =>
      if s.Busy() {
        CountRoleAppend(s.messages, Message(id, ReplyText(s.inFlight.value, outcome), Assistant, None), User);
      }
    case _ =>
  }

  /** The user messages a run adds are exactly its accepted sends. */
  lemma {:induction false} UsersAreSends(s: State, events: seq<Event>)
    ensures CountRole(Run(s, events).messages, User) == CountRole(s.messages, User) + AcceptedSends(s, events)
    decreases |events|
  {
    if |events| > 0 {
      StepCountsSend(s, events[0]);
      UsersAreSends(Step(s, events[0]), events[1..]);
    }
  }

  /**
   * From mount, after any events of which N sends were accepted, an idle page
   * shows 1 + 2N messages and a busy one 2N.
   */
  lemma ShapeFromOpen(events: seq<Event>)
    ensures var r := Run(Open(), events);
      && (!r.Busy() ==> |r.messages| == 1 + 2 * AcceptedSends(Open(), events))
      && (r.Busy() ==> |r.messages| == 2 * AcceptedSends(Open(), events))
  {
    var o := Open();
    CountRoleAppend([], o.messages[0], User);
    assert [] + [o.messages[0]] == o.messages;
    UsersAreSends(o, events);
    RunKeepsValid(o, events);
    TranscriptShape(Run(o, events));
  }

  /** The whole life of the page from mount: valid throughout, and the welcome message stays first. */
  lemma FromOpen(events: seq<Event>)
    ensures Valid(Run(Open(), events))
    ensures Run(Open(), events).messages[0] == WelcomeMessage(WelcomeText)
  {
    RunKeepsValid(Open(), events);
  }

  /** A send changes the page exactly when its guard lets it through. */
  lemma BeginInertIffRefused(s: State, id: string)
    ensures Begin(s, id) == s <==> !CanSend(s)
  {
    if CanSend(s) {
      assert |Begin(s, id).messages| != |s.messages|;
    }
  }

  /** One accepted send followed by its reply adds exactly the user message and the reply. */
  lemma SendThenReply(s: State, userId: string, outcome: Outcome, replyId: string)
    requires CanSend(s)
    ensures var r := Complete(Begin(s, userId), outcome, replyId);
      && r.messages == s.messages + [UserMessage(userId, s.input, s.file),
                                     Message(replyId, ReplyText(Dispatch(s.input, s.file), outcome), Assistant, None)]
      && !r.Busy() && r.input == "" && r.file.None?
  {
    var m := UserMessage(userId, s.input, s.file);
    var reply := Message(replyId, ReplyText(Dispatch(s.input, s.file), outcome), Assistant, None);
    var b := State(s.messages + [m], "", s.file, Some(Dispatch(s.input, s.file)));
    assert Begin(s, userId) == b;
    assert Complete(b, outcome, replyId) == State(b.messages + [reply], "", None, None);
    assert b.messages + [reply] == s.messages + [m, reply];
  }

  /** Sending "Hello" posts it to the text endpoint, and a `summary` of "Hi there" becomes the last message. */
  lemma HelloScenario(s: State, analysis: string)
    requires Valid(s) && !s.Busy() && s.input == "Hello" && s.file.None?
    ensures var b := Begin(s, "1");
      && b.inFlight == Some(Request(AnalyzeText, JsonText("Hello")))
      && b.inFlight.value.endpoint.Path() == "/api/analyze-text"
      && var r := Complete(b, Ok(ResponseData("Hi there", analysis)), "2");
         && r.messages[|r.messages| - 1].role == Assistant
         && r.messages[|r.messages| - 1].content == "Hi there"
  {
  }

  /**
   * Sending a 2 MiB "report.pdf" with no text posts it as multipart to the
   * document endpoint; when the call fails the document apology is the last
   * message, the gate is open and the file is gone.
   */
  lemma FailedDocumentScenario(s: State)
    requires Valid(s) && !s.Busy() && s.input == "" && s.file == Some(File("report.pdf", 2097152, "application/pdf"))
    ensures var b := Begin(s, "1");
      && b.inFlight == Some(Request(AnalyzeDocument, Multipart(s.file.value)))
      && b.messages[|b.messages| - 1].attachments == Some([Attachment("report.pdf", Megabytes(2097152), "application/pdf")])
      && var r := Complete(b, Fail, "2");
         && r.messages[|r.messages| - 1].content == DocumentApology
         && !r.Busy() && r.file.None?
  {
  }

  /**
   * The upload handler does not look at the loading flag: a file picked while
   * a send is in flight is attached, is not part of that send, and is dropped
   * when the send settles.
   */
  lemma FilePickedDuringFlightIsDropped(s: State, f: File, outcome: Outcome, id: string)
    requires s.Busy() && WithinLimit(f)
    ensures var p := PickFile(s, Some(f));
      && p.file == Some(f) && p.inFlight == s.inFlight
      && Complete(p, outcome, id).file.None?
  {
  }
}

=== FILE: code_generation.dfy ===
/**
 * The text-only chat page (`src/app/code-generation/page.tsx`): the same
 * transcript discipline as the document chat, without attachments, reading
 * the response's `analysis` field.
 */
module CodeGeneration {
  import opened Options
  import opened JsText
  import opened Api
  import opened Transcript

  /** The welcome text exactly as the source file holds it: a UTF-8 emoji decoded as Windows-1252. */
  const WelcomeText: string :=
    "\U{00F0}\U{0178}\U{2018}\U{2039} Hello! I'm your text analysis assistant. Paste or type text to analyze."

  /** `inFlight` is the request the pending send made; `isLoading` is "a send is in flight". */
  datatype State = State(messages: seq<Message>, input: string, inFlight: Option<Request>) {
    predicate Busy() {
      inFlight.Some?
    }
  }

  function Fresh(): State {
    State([], "", None)
  }

  /** The welcome-seeding mount effect. */
  function SeedWelcome(s: State): (r: State)
    ensures r.messages == Seed(s.messages, WelcomeText)
    ensures r.input == s.input && r.inFlight == s.inFlight
  {
    s.(messages := Seed(s.messages, WelcomeText))
  }

  /** The page once mounted: just the welcome message, idle, nothing typed. */
  function Open(): (s: State)
    ensures |s.messages| == 1 && s.messages[0].id == WelcomeId && s.messages[0].role == Assistant
    ensures s.messages[0].content == WelcomeText
    ensures !s.Busy() && s.input == ""
    ensures Valid(s)
  {
    SeedWelcome(Fresh())
  }

  /** The textarea `onChange`: the text is replaced and nothing else moves. */
  function EditText(s: State, value: string): (r: State)
    ensures r.input == value && r.messages == s.messages && r.inFlight == s.inFlight
  {
    s.(input := value)
  }

  /** The guard of `handleSendMessage`: non-blank text and nothing in flight. */
  predicate CanSend(s: State) {
    !IsBlank(s.input) && !s.Busy()
  }

  /** The request a send makes: the raw text, posted to the text endpoint. */
  function RequestFor(text: string): (r: Request)
    ensures r.endpoint.Path() == "/api/analyze-text"
    ensures r.payload.JsonText? && r.payload.text == text
  {
    Request(AnalyzeText, JsonText(text))
  }

  /** The synchronous part of `handleSendMessage`. Refused sends leave the state as it is. */
  function Begin(s: State, id: string): (r: State)
    ensures r == s <==> !CanSend(s)
    ensures CanSend(s) ==>
      && |r.messages| == |s.messages| + 1
      && s.messages <= r.messages
      && r.messages[|s.messages|] == Message(id, s.input, User, None)
      && r.Busy() && r.inFlight == Some(Request(AnalyzeText, JsonText(s.input))) && r.input == ""
  {
    if !CanSend(s) then s
    else State(s.messages + [Message(id, s.input, User, None)], "", Some(RequestFor(s.input)))
  }

  /** The reply text: the response's `analysis`, or the apology `analyzeText` returns from its own `catch`. */
  function ReplyText(outcome: Outcome): (t: string)
    ensures outcome.Ok? ==> t == outcome.data.analysis
    ensures outcome.Fail? ==> t == TextApology && t != GenericApology
  {
    Resolve(outcome, Analysis, TextApology)
  }

  /** The call settles: one assistant message is appended and the gate reopens. */
  function Complete(s: State, outcome: Outcome, id: string): (r: State)
    requires s.Busy()
    ensures |r.messages| == |s.messages| + 1 && s.messages <= r.messages
    ensures r.messages[|s.messages|].role == Assistant && r.messages[|s.messages|].id == id
    ensures r.messages[|s.messages|].attachments.None?
    ensures outcome.Ok? ==> r.messages[|s.messages|].content == outcome.data.analysis
    ensures outcome.Fail? ==> r.messages[|s.messages|].content == TextApology
    ensures !r.Busy() && r.input == s.input
  {
    State(s.messages + [Message(id, ReplyText(outcome), Assistant, None)], s.input, None)
  }

  /** Welcome first, roles alternating, a trailing user message exactly while busy, no attachments anywhere. */
  predicate Valid(s: State) {
    && |s.messages| >= 1
    && s.messages[0] == WelcomeMessage(WelcomeText)
    && Alternating(s.messages)
    && (s.Busy() <==> s.messages[|s.messages| - 1].role == User)
    && TextOnly(s.messages)
  }

  datatype Event = Mount | Type(value: string) | Send(id: string) | Settle(outcome: Outcome, id: string)

  /** One event. A call can only settle while one is in flight, so `Settle` on an idle page is ignored. */
  function Step(s: State, e: Event): State {
    match e
    case Mount => SeedWelcome(s)
    case Type(value) => EditText(s, value)
    case Send(id) => Begin(s, id)
    case Settle(outcome, id) => if s.Busy() then Complete(s, outcome, id) else s
  }

  function Run(s: State, events: seq<Event>): State
    decreases |events|
  {
    if |events| == 0 then s else Run(Step(s, events[0]), events[1..])
  }

  lemma StepKeepsValid(s: State, e: Event)
    requires Valid(s)
    ensures Valid(Step(s, e))
  {
    match e
    case Send(id) =>
      if CanSend(s) {
        SendKeepsValid(s, id);
      }
    case Settle(outcome, id) =>
      if s.Busy() {
        SettleKeepsValid(s, outcome, id);
      }
    case _ =>
  }

  lemma SendKeepsValid(s: State, id: string)
    requires Valid(s) && CanSend(s)
    ensures Valid(Begin(s, id))
  {
    AppendUserKeepsValid(s, Message(id, s.input, User, None));
  }

  /** The state an accepted send produces is valid: the new user message answers the welcome or the last reply. */
  lemma AppendUserKeepsValid(s: State, m: Message)
    requires Valid(s) && !s.Busy() && m.role == User && m.attachments.None?
    ensures Valid(State(s.messages + [m], "", Some(RequestFor(s.input))))
  {
    var r := State(s.messages + [m], "", Some(RequestFor(s.input)));
    NextRole(|s.messages| - 1);
    assert RoleAt(|s.messages|) == User;
    AppendAlternating(s.messages, m);
    AppendTextOnly(s.messages, m);
    assert r.messages[0] == s.messages[0];
  }

  lemma SettleKeepsValid(s: State, outcome: Outcome, id: string)
    requires Valid(s) && s.Busy()
    ensures Valid(Complete(s, outcome, id))
  {
    var m := Message(id, ReplyText(outcome), Assistant, None);
    var r := State(s.messages + [m], s.input, None);
    assert Complete(s, outcome, id) == r;
    NextRole(|s.messages| - 1);
    assert RoleAt(|s.messages|) == Assistant;
    AppendAlternating(s.messages, m);
    AppendTextOnly(s.messages, m);
    assert r.messages[0] == s.messages[0];
  }

  /** Every state reachable from a valid one by any events is valid. */
  lemma {:induction false} RunKeepsValid(s: State, events: seq<Event>)
    requires Valid(s)
    ensures Valid(Run(s, events))
    decreases |events|
  {
    if |events| > 0 {
      StepKeepsValid(s, events[0]);
      RunKeepsValid(Step(s, events[0]), events[1..]);
    }
  }

  /** No event edits or removes an earlier message. */
  lemma {:induction false} RunOnlyAppends(s: State, events: seq<Event>)
    ensures s.messages <= Run(s, events).messages
    decreases |events|
  {
    if |events| > 0 {
      var next := Step(s, events[0]);
      assert s.messages <= next.messages;
      RunOnlyAppends(next, events[1..]);
    }
  }

  /** An idle page after N sends shows 1 + 2N messages ending with a reply. */
  lemma TranscriptShape(s: State)
    requires Valid(s)
    ensures !s.Busy() ==> |s.messages| == 1 + 2 * CountRole(s.messages, User)
                          && s.messages[|s.messages| - 1].role == Assistant
    ensures s.Busy() ==> |s.messages| == 2 * CountRole(s.messages, User)
                         && s.messages[|s.messages| - 1].role == User
  {
    AlternatingLength(s.messages);
  }

  /** The whole life of the page from mount. */
  lemma FromOpen(events: seq<Event>)
    ensures Valid(Run(Open(), events))
    ensures Run(Open(), events).messages[0] == WelcomeMessage(WelcomeText)
  {
    RunKeepsValid(Open(), events);
  }
}

=== FILE: foundation.dfy ===
/** The optional value used wherever a page holds `T | null` or an optional property. */
module Options {
  datatype Option<+T> = None | Some(value: T)
}

/**
 * The two pieces of JavaScript string behaviour the pages rely on:
 * `String.prototype.trim` (used only to test for blank input) and the
 * decimal rendering of a non-negative integer (`bytes + " bytes"`).
 */
module JsText {

  /** WhiteSpace and LineTerminator code points of ECMA-262 (sections 12.2 and 12.3), which `trim` strips. */
  predicate IsTrimmable(c: char) {
    || c == '\t' || c == '\n' || c == '\U{000B}' || c == '\U{000C}' || c == '\r'
    || c == ' ' || c == '\U{00A0}' || c == '\U{1680}'
    || ('\U{2000}' <= c <= '\U{200A}')
    || c == '\U{2028}' || c == '\U{2029}' || c == '\U{202F}' || c == '\U{205F}'
    || c == '\U{3000}' || c == '\U{FEFF}'
  }

  /** `s.trimStart()`: the longest whitespace prefix is dropped. */
  function TrimStart(s: string): (t: string)
    ensures t == "" || !IsTrimmable(t[0])
    ensures |t| <= |s| && t == s[|s| - |t|..]
  {
    if |s| > 0 && IsTrimmable(s[0]) then TrimStart(s[1..]) else s
  }

  /** What `trimStart` drops is whitespace only. */
  lemma {:induction false} TrimStartDropsWhitespace(s: string)
    ensures forall i :: 0 <= i < |s| - |TrimStart(s)| ==> IsTrimmable(s[i])
    decreases |s|
  {
    if |s| > 0 && IsTrimmable(s[0]) {
      TrimStartDropsWhitespace(s[1..]);
      assert forall i :: 1 <= i < |s| ==> s[i] == s[1..][i - 1];
    }
  }

  /** `s.trimEnd()`: the longest whitespace suffix is dropped. */
  function TrimEnd(s: string): (t: string)
    ensures t == "" || !IsTrimmable(t[|t| - 1])
    ensures |t| <= |s| && t == s[..|t|]
  {
    if |s| > 0 && IsTrimmable(s[|s| - 1]) then TrimEnd(s[..|s| - 1]) else s
  }

  /** What `trimEnd` drops is whitespace only. */
  lemma {:induction false} TrimEndDropsWhitespace(s: string)
    ensures forall i :: |TrimEnd(s)| <= i < |s| ==> IsTrimmable(s[i])
    decreases |s|
  {
    if |s| > 0 && IsTrimmable(s[|s| - 1]) {
      TrimEndDropsWhitespace(s[..|s| - 1]);
      assert forall i :: 0 <= i < |s| - 1 ==> s[i] == s[..|s| - 1][i];
    }
  }

  /** `s.trim()` */
  function Trim(s: string): string {
    TrimEnd(TrimStart(s))
  }

  /** `!s.trim()`: the guard every page uses to refuse empty text. */
  predicate IsBlank(s: string)
    ensures s == "" ==> IsBlank(s)
  {
    assert s == "" ==> TrimStart(s) == "" && TrimEnd("") == "";
    Trim(s) == ""
  }

  predicate AllTrimmable(s: string) {
    forall i :: 0 <= i < |s| ==> IsTrimmable(s[i])
  }

  lemma {:induction false} TrimStartEmpty(s: string)
    ensures TrimStart(s) == "" <==> AllTrimmable(s)
    decreases |s|
  {
    if |s| > 0 && IsTrimmable(s[0]) {
      TrimStartEmpty(s[1..]);
      assert AllTrimmable(s) <==> AllTrimmable(s[1..]) by {
        if AllTrimmable(s[1..]) {
          forall i | 0 <= i < |s| ensures IsTrimmable(s[i]) {
            if i > 0 { assert s[i] == s[1..][i - 1]; }
          }
        }
      }
    }
  }

  /** Blankness means "nothing but whitespace and line terminators", both ways. */
  lemma BlankIffAllWhitespace(s: string)
    ensures IsBlank(s) <==> AllTrimmable(s)
  {
    TrimStartEmpty(s);
    var t := TrimStart(s);
    assert t == "" <==> TrimEnd(t) == "" by {
      if t != "" {
        assert !IsTrimmable(t[0]);
        if TrimEnd(t) == "" {
          TrimEndEmptyNeedsWhitespaceHead(t);
        }
      }
    }
  }

  lemma {:induction false} TrimEndEmptyNeedsWhitespaceHead(t: string)
    requires t != "" && TrimEnd(t) == ""
    ensures IsTrimmable(t[0])
    decreases |t|
  {
    assert IsTrimmable(t[|t| - 1]);
    if |t| > 1 {
      TrimEndEmptyNeedsWhitespaceHead(t[..|t| - 1]);
    }
  }

  predicate IsDigit(c: char) {
    '0' <= c <= '9'
  }

  function DigitChar(d: nat): (c: char)
    requires d < 10
    ensures IsDigit(c)
  {
    (48 + d) as char
  }

  predicate AllDigits(s: string) {
    forall i :: 0 <= i < |s| ==> IsDigit(s[i])
  }

  /** The shortest decimal numeral of `n`, as JavaScript's Number-to-String gives for an integer. */
  function Decimal(n: nat): (s: string)
    ensures |s| >= 1 && AllDigits(s)
    ensures |s| > 1 ==> s[0] != '0'
    decreases n
  {
    if n < 10 then [DigitChar(n)] else Decimal(n / 10) + [DigitChar(n % 10)]
  }

  /** The value a string of decimal digits denotes. */
  function DecimalValue(s: string): nat
    requires AllDigits(s)
    decreases |s|
  {
    if s == "" then 0
    else DecimalValue(s[..|s| - 1]) * 10 + (s[|s| - 1] as int - 48)
  }

  /** Reading back a rendered numeral gives the number. */
  lemma {:induction false} DecimalRoundTrip(n: nat)
    ensures DecimalValue(Decimal(n)) == n
    decreases n
  {
    if n >= 10 {
      var s := Decimal(n);
      assert s[..|s| - 1] == Decimal(n / 10);
      DecimalRoundTrip(n / 10);
    }
  }
}

/** Files picked by the user, the 10 MiB limit, and the attachment descriptor shown in a chat message. */
module Files {
  import opened Options
  import opened JsText

  /** The browser `File` fields the pages read: `name`, `size` in bytes, `type`. */
  datatype File = File(name: string, size: nat, mimeType: string)

  const MaxFileSize: nat := 10 * 1024 * 1024

  /** The upload handlers reject a file whose size exceeds `MaxFileSize`. */
  predicate WithinLimit(f: File) {
    f.size <= MaxFileSize
  }

  /**
   * The result of `formatFileSize`. Below 1024 bytes the exact text is kept;
   * the KB and MB branches keep the byte count, since their one-decimal
   * rendering comes from floating-point division.
   */
  datatype SizeLabel = ByteCount(text: string) | Kilobytes(size: nat) | Megabytes(size: nat)

  const BytesSuffix: string := " bytes"

  function FormatFileSize(size: nat): (l: SizeLabel)
    ensures l.ByteCount? <==> size < 1024
    ensures l.Kilobytes? <==> 1024 <= size < 1048576
    ensures l.Megabytes? <==> 1048576 <= size
    ensures l.ByteCount? ==> l.text == Decimal(size) + BytesSuffix
    ensures l.ByteCount? ==> ParseByteCount(l.text) == Some(size)
    ensures !l.ByteCount? ==> l.size == size
  {
    if size < 1024 then
      var digits := Decimal(size);
      var text := digits + BytesSuffix;
      assert text[..|digits|] == digits;
      assert text[|digits|..] == BytesSuffix;
      DecimalRoundTrip(size);
      ByteCount(text)
    else if size < 1048576 then Kilobytes(size)
    else Megabytes(size)
  }

  /** Reads a "<digits> bytes" label back; the inverse of the byte branch of `FormatFileSize`. */
  function ParseByteCount(text: string): Option<nat> {
    if |text| > |BytesSuffix| && text[|text| - |BytesSuffix|..] == BytesSuffix
       && AllDigits(text[..|text| - |BytesSuffix|])
    then Some(DecimalValue(text[..|text| - |BytesSuffix|]))
    else None
  }

  /** The limit is inclusive: exactly 10 MiB is accepted, one byte more is refused. */
  lemma LimitBoundary(name: string, mimeType: string)
    ensures WithinLimit(File(name, 10485760, mimeType))
    ensures !WithinLimit(File(name, 10485761, mimeType))
  {
  }

  /** 512 bytes, 2048 bytes and 5 MiB fall in the bytes, KB and MB branches. */
  lemma SizeLabelExamples()
    ensures FormatFileSize(512) == ByteCount("512 bytes")
    ensures FormatFileSize(2048) == Kilobytes(2048)
    ensures FormatFileSize(5242880) == Megabytes(5242880)
  {
    assert Decimal(5) == "5";
    assert Decimal(51) == "51";
    assert Decimal(512) == "512";
  }

  /** One entry of a user message's `attachments`. */
  datatype Attachment = Attachment(name: string, size: SizeLabel, mimeType: string)

  /** The descriptor a chat message shows for a file: its name and type as given, and its size label. */
  function Describe(f: File): (a: Attachment)
    ensures a.name == f.name && a.mimeType == f.mimeType
    ensures a.size == FormatFileSize(f.size)
  {
    Attachment(f.name, FormatFileSize(f.size), f.mimeType)
  }
}

/** The endpoints the pages call, the two request shapes, and the outcome of one call. */
module Api {
  import opened Options
  import opened Files

  datatype Endpoint = AnalyzeText | AnalyzeDocument | AnalyzeSentiment {
    function Path(): string {
      match this
      case AnalyzeText => "/api/analyze-text"
      case AnalyzeDocument => "/api/analyze-document"
      case AnalyzeSentiment => "/api/analyze-sentiment"
    }
  }

  /** A JSON body `{ text }`, or a multipart form whose field `file` holds the file. */
  datatype Payload = JsonText(text: string) | Multipart(file: File)

  datatype Request = Request(endpoint: Endpoint, payload: Payload)

  /** The call a file-capable page makes: an attached file to the document endpoint, else the raw text to the text endpoint. */
  function Dispatch(input: string, file: Option<File>): (r: Request)
    ensures r.payload.Multipart? <==> file.Some?
    ensures file.Some? ==> r.endpoint.Path() == "/api/analyze-document" && r.payload.file == file.value
    ensures file.None? ==> r.endpoint.Path() == "/api/analyze-text" && r.payload.text == input
  {
    match file
    case Some(f) => Request(AnalyzeDocument, Multipart(f))
    case None => Request(AnalyzeText, JsonText(input))
  }

  /** The two fields of `response.data` that the pages read. */
  datatype ResponseData = ResponseData(summary: string, analysis: string)

  datatype Field = Summary | Analysis

  function Read(data: ResponseData, field: Field): string {
    match field
    case Summary => data.summary
    case Analysis => data.analysis
  }

  /** How one call ended: a response body, or any thrown error (network, non-2xx). */
  datatype Outcome = Ok(data: ResponseData) | Fail

  /** The string a page keeps from a call whose errors it catches: the field it reads, or its apology. */
  function Resolve(outcome: Outcome, field: Field, apology: string): (r: string)
    ensures outcome.Ok? && field == Summary ==> r == outcome.data.summary
    ensures outcome.Ok? && field == Analysis ==> r == outcome.data.analysis
    ensures outcome.Fail? ==> r == apology
  {
    match outcome
    case Ok(data) => Read(data, field)
    case Fail => apology
  }
}

=== FILE: summarization.dfy ===
/**
 * The single-shot summarization page (`src/app/summarization/page.tsx`):
 * text or one file in, one summary string out. Unlike the chat page the
 * send leaves the text and the file in place, and the result replaces
 * rather than appends.
 */
module Summarization {
  import opened Options
  import opened JsText
  import opened Files
  import opened Api

  const Apology: string := "Sorry, something went wrong while generating the summary. Please try again."

  /** `summary` is the page's `string | null` result; `inFlight` is the request the pending submit made. */
  datatype State = State(input: string, file: Option<File>, inFlight: Option<Request>, summary: Option<string>) {
    predicate Busy() {
      inFlight.Some?
    }
  }

  function Initial(): State {
    State("", None, None, None)
  }

  /** `!summary` is false: the page shows the result view rather than the input form. */
  predicate ShowsResult(s: State) {
    s.summary.Some? && s.summary.value != ""
  }

  /** The textarea `onChange`: the text is replaced and any attached file is dropped, even when the new text is empty. */
  function EditText(s: State, value: string): (r: State)
    ensures r.input == value && r.file.None?
    ensures r.inFlight == s.inFlight && r.summary == s.summary
  {
    s.(input := value, file := None)
  }

  /** `handleFileUpload`: nothing picked or an oversized file changes nothing; otherwise attach it and clear the text. */
  function PickFile(s: State, picked: Option<File>): (r: State)
    ensures r == s <==> picked.None? || !WithinLimit(picked.value) || (s.file == picked && s.input == "")
    ensures picked.Some? && WithinLimit(picked.value) ==> r.file == picked && r.input == ""
    ensures r.inFlight == s.inFlight && r.summary == s.summary
  {
    match picked
    case None => s
    case Some(f) => if !WithinLimit(f) then s else s.(file := Some(f), input := "")
  }

  /** `removeUploadedFile` */
  function RemoveFile(s: State): (r: State)
    ensures r.file.None? && r.input == s.input && r.inFlight == s.inFlight && r.summary == s.summary
  {
    s.(file := None)
  }

  /** `clearInputs`: back to an empty form; a request in flight is not cancelled. */
  function Clear(s: State): (r: State)
    ensures r.input == "" && r.file.None? && r.summary.None?
    ensures !ShowsResult(r)
    ensures r.inFlight == s.inFlight
  {
    State("", None, s.inFlight, None)
  }

  /** The guard of `handleSubmit`. */
  predicate CanSubmit(s: State) {
    (!IsBlank(s.input) || s.file.Some?) && !s.Busy()
  }

  /** The synchronous part of `handleSubmit`: only the loading flag and the call; text, file and result stay. */
  function Begin(s: State): (r: State)
    ensures r == s <==> !CanSubmit(s)
    ensures CanSubmit(s) ==> r.Busy() && r.input == s.input && r.file == s.file && r.summary == s.summary
    ensures CanSubmit(s) && s.file.Some? ==> r.inFlight == Some(Request(AnalyzeDocument, Multipart(s.file.value)))
    ensures CanSubmit(s) && s.file.None? ==> r.inFlight == Some(Request(AnalyzeText, JsonText(s.input)))
  {
    if !CanSubmit(s) then s else s.(inFlight := Some(Dispatch(s.input, s.file)))
  }

  /**
   * The call settles: the result becomes the response's `summary` (either
   * endpoint) or the apology, and only the loading flag is reset.
   */
  function Complete(s: State, outcome: Outcome): (r: State)
    requires s.Busy()
    ensures outcome.Ok? ==> r.summary == Some(outcome.data.summary)
    ensures outcome.Fail? ==> r.summary == Some(Apology) && ShowsResult(r)
    ensures !r.Busy() && r.input == s.input && r.file == s.file
  {
    s.(inFlight := None, summary := Some(Resolve(outcome, Summary, Apology)))
  }

  /** Text and a file are never held at once. */
  predicate Valid(s: State) {
    s.file.Some? ==> s.input == ""
  }

  datatype Event =
    | Type(value: string)
    | Pick(picked: Option<File>)
    | Unpick
    | ClearAll
    | Submit
    | Settle(outcome: Outcome)

  /** One event. A call can only settle while one is in flight, so `Settle` on an idle page is ignored. */
  function Step(s: State, e: Event): State {
    match e
    case Type(value) => EditText(s, value)
    case Pick(picked) => PickFile(s, picked)
    case Unpick => RemoveFile(s)
    case ClearAll => Clear(s)
    case Submit => Begin(s)
    case Settle(outcome) => if s.Busy() then Complete(s, outcome) else s
  }

  function Run(s: State, events: seq<Event>): State
    decreases |events|
  {
    if |events| == 0 then s else Run(Step(s, events[0]), events[1..])
  }

  /** Input-mode exclusivity holds from the initial state through any events. */
  lemma {:induction false} RunKeepsValid(s: State, events: seq<Event>)
    requires Valid(s)
    ensures Valid(Run(s, events))
    decreases |events|
  {
    if |events| > 0 {
      var next := Step(s, events[0]);
      assert Valid(next);
      RunKeepsValid(next, events[1..]);
    }
  }

  /** Whatever the outcome, the settled page shows its result exactly when the stored string is non-empty. */
  lemma ResultShownAfterSettle(s: State, outcome: Outcome)
    requires s.Busy()
    ensures ShowsResult(Complete(s, outcome)) <==> Resolve(outcome, Summary, Apology) != ""
    ensures outcome.Fail? ==> ShowsResult(Complete(s, outcome))
  {
  }

  /** A successful call shows its result exactly when the summary it returned is non-empty. */
  lemma ResultShownOnSuccess(s: State, data: ResponseData)
    requires s.Busy()
    ensures ShowsResult(Complete(s, Ok(data))) <==> data.summary != ""
  {
  }
}

=== FILE: text_analysis.dfy ===
/**
 * The two text-only single-shot pages, `src/app/sentimental-analysis/page.tsx`
 * and `src/app/name-entity-recognition/page.tsx`. Their handlers are the same
 * code; they differ only in the endpoint, the response field they keep and
 * the apology text, which `Config` carries.
 */
module TextAnalysis {
  import opened Options
  import opened JsText
  import opened Api

  datatype Config = Config(endpoint: Endpoint, field: Field, apology: string)

  /** The sentiment page posts to the sentiment endpoint and keeps `analysis`. */
  const Sentiment: Config := Config(
    AnalyzeSentiment, Analysis,
    "Sorry, something went wrong while analyzing the text. Please try again.")

  /** The entity-recognition page posts to the text endpoint and keeps `summary`. */
  const EntityRecognition: Config := Config(
    AnalyzeText, Summary,
    "Sorry, something went wrong while generating the summary. Please try again.")

  /** `result` is the page's `string | null` state (`analysis` or `summary`); `inFlight` the pending request. */
  datatype State = State(input: string, inFlight: Option<Request>, result: Option<string>) {
    predicate Busy() {
      inFlight.Some?
    }
  }

  function Initial(): State {
    State("", None, None)
  }

  /** `!analysis` / `!summary` is false: the page shows the result view. */
  predicate ShowsResult(s: State) {
    s.result.Some? && s.result.value != ""
  }

  /** The textarea `onChange`. */
  function EditText(s: State, value: string): (r: State)
    ensures r.input == value && r.inFlight == s.inFlight && r.result == s.result
  {
    s.(input := value)
  }

  /** `clearInput` / `clearInputs`: empty text and no result; a request in flight is not cancelled. */
  function Clear(s: State): (r: State)
    ensures r.input == "" && r.result.None? && !ShowsResult(r)
    ensures r.inFlight == s.inFlight
  {
    State("", s.inFlight, None)
  }

  /** The guard of `handleSubmit`. */
  predicate CanSubmit(s: State) {
    !IsBlank(s.input) && !s.Busy()
  }

  /** The synchronous part of `handleSubmit`: the raw text is posted as JSON to the page's endpoint. */
  function Begin(c: Config, s: State): (r: State)
    ensures r == s <==> !CanSubmit(s)
    ensures CanSubmit(s) ==> r.inFlight == Some(Request(c.endpoint, JsonText(s.input)))
    ensures CanSubmit(s) ==> r.input == s.input && r.result == s.result
  {
    if !CanSubmit(s) then s else s.(inFlight := Some(Request(c.endpoint, JsonText(s.input))))
  }

  /** The call settles: the result becomes the page's response field or its apology; only the flag is reset. */
  function Complete(c: Config, s: State, outcome: Outcome): (r: State)
    requires s.Busy()
    ensures outcome.Ok? ==> r.result == Some(Read(outcome.data, c.field))
    ensures outcome.Fail? ==> r.result == Some(c.apology)
    ensures !r.Busy() && r.input == s.input
  {
    State(s.input, None, Some(Resolve(outcome, c.field, c.apology)))
  }

  /** An accepted submit changes only the request in flight. */
  lemma Accepted(c: Config, s: State)
    requires CanSubmit(s)
    ensures Begin(c, s) == s.(inFlight := Some(Request(c.endpoint, JsonText(s.input))))
  {
  }

  /**
   * Whatever the outcome, the settled page shows its result exactly when the
   * stored string is non-empty: on success, when the field it reads is non-empty.
   */
  lemma ResultShownAfterSettle(c: Config, s: State, outcome: Outcome)
    requires s.Busy()
    ensures ShowsResult(Complete(c, s, outcome)) <==> Resolve(outcome, c.field, c.apology) != ""
    ensures outcome.Ok? ==> (ShowsResult(Complete(c, s, outcome)) <==> Read(outcome.data, c.field) != "")
  {
  }

  /** Sentiment: the request goes to `/api/analyze-sentiment`, success keeps `analysis`, failure is visible. */
  lemma SentimentRoundTrip(s: State, outcome: Outcome)
    requires CanSubmit(s)
    ensures var b := Begin(Sentiment, s);
      && b.inFlight.value.endpoint.Path() == "/api/analyze-sentiment"
      && b.inFlight.value.payload == JsonText(s.input)
      && var r := Complete(Sentiment, b, outcome);
         && (outcome.Ok? ==> r.result == Some(outcome.data.analysis))
         && (outcome.Fail? ==> ShowsResult(r))
         && !r.Busy()
  {
    Accepted(Sentiment, s);
  }

  /** Entity recognition: the request goes to `/api/analyze-text`, success keeps `summary`, failure is visible. */
  lemma EntityRecognitionRoundTrip(s: State, outcome: Outcome)
    requires CanSubmit(s)
    ensures var b := Begin(EntityRecognition, s);
      && b.inFlight.value.endpoint.Path() == "/api/analyze-text"
      && b.inFlight.value.payload == JsonText(s.input)
      && var r := Complete(EntityRecognition, b, outcome);
         && (outcome.Ok? ==> r.result == Some(outcome.data.summary))
         && (outcome.Fail? ==> ShowsResult(r))
         && !r.Busy()
  {
    Accepted(EntityRecognition, s);
  }

  datatype Event = Type(value: string) | ClearAll | Submit | Settle(outcome: Outcome)

  /** One event. A call can only settle while one is in flight, so `Settle` on an idle page is ignored. */
  function Step(c: Config, s: State, e: Event): State {
    match e
    case Type(value) => EditText(s, value)
    case ClearAll => Clear(s)
    case Submit => Begin(c, s)
    case Settle(outcome) => if s.Busy() then Complete(c, s, outcome) else s
  }

  /** The state after `events`, the last event applied last. */
  function Run(c: Config, s: State, events: seq<Event>): State
    decreases |events|
  {
    if |events| == 0 then s else Step(c, Run(c, s, events[..|events| - 1]), events[|events| - 1])
  }

  /** The only request a page ever has in flight is its own text posted as JSON to its own endpoint. */
  predicate Valid(c: Config, s: State) {
    s.inFlight.Some? ==> s.inFlight.value.endpoint == c.endpoint && s.inFlight.value.payload.JsonText?
  }

  lemma {:induction false} RunKeepsValid(c: Config, s: State, events: seq<Event>)
    requires Valid(c, s)
    ensures Valid(c, Run(c, s, events))
    decreases |events|
  {
    if |events| > 0 {
      RunKeepsValid(c, s, events[..|events| - 1]);
    }
  }

  /**
   * Single flight: once a request is in flight, typing, clearing and further
   * submits leave it in place; only its settling ends it.
   */
  lemma {:induction false} SingleFlight(c: Config, s: State, events: seq<Event>)
    requires s.Busy()
    requires forall i :: 0 <= i < |events| ==> !events[i].Settle?
    ensures Run(c, s, events).inFlight == s.inFlight
    decreases |events|
  {
    if |events| > 0 {
      var prefix := events[..|events| - 1];
      assert forall i :: 0 <= i < |prefix| ==> prefix[i] == events[i];
      SingleFlight(c, s, prefix);
    }
  }

  /**
   * The events that write `result`: a clear, or a settle that arrives while a
   * call is in flight. Typing, submitting and a stray settle leave it alone.
   */
  predicate Writes(c: Config, s: State, events: seq<Event>, k: int)
    requires 0 <= k < |events|
  {
    events[k].ClearAll? || (events[k].Settle? && Run(c, s, events[..k]).Busy())
  }

  /** What the write at index `k` stores. */
  function Written(c: Config, e: Event): Option<string> {
    match e
    case Settle(outcome) => Some(Resolve(outcome, c.field, c.apology))
    case _ => None
  }

  /** Extending a trace does not change which of its earlier events write. */
  lemma WritesPrefix(c: Config, s: State, events: seq<Event>, k: int)
    requires 0 <= k < |events| - 1
    ensures Writes(c, s, events, k) <==> Writes(c, s, events[..|events| - 1], k)
  {
    assert events[..|events| - 1][..k] == events[..k];
  }

  /** A step that does not write leaves the result alone. */
  lemma NonWriteKeepsResult(c: Config, t: State, e: Event)
    requires !e.ClearAll? && !(e.Settle? && t.Busy())
    ensures Step(c, t, e).result == t.result
  {
  }

  lemma {:induction false} NoWriteKeepsResult(c: Config, s: State, events: seq<Event>)
    requires forall k :: 0 <= k < |events| ==> !Writes(c, s, events, k)
    ensures Run(c, s, events).result == s.result
    decreases |events|
  {
    if |events| > 0 {
      var n := |events| - 1;
      forall k | 0 <= k < n
        ensures !Writes(c, s, events[..n], k)
      {
        WritesPrefix(c, s, events, k);
      }
      NoWriteKeepsResult(c, s, events[..n]);
      assert !Writes(c, s, events, n);
      NonWriteKeepsResult(c, Run(c, s, events[..n]), events[n]);
    }
  }

  lemma {:induction false} LastWriteDecides(c: Config, s: State, events: seq<Event>, k: int)
    requires 0 <= k < |events| && Writes(c, s, events, k)
    requires forall j :: k < j < |events| ==> !Writes(c, s, events, j)
    ensures Run(c, s, events).result == Written(c, events[k])
    decreases |events|
  {
    var n := |events| - 1;
    assert events[..n] == events[..|events| - 1];
    if k < n {
      WritesPrefix(c, s, events, k);
      forall j | k < j < n
        ensures !Writes(c, s, events[..n], j)
      {
        WritesPrefix(c, s, events, j);
      }
      LastWriteDecides(c, s, events[..n], k);
      assert !Writes(c, s, events, n);
      NonWriteKeepsResult(c, Run(c, s, events[..n]), events[n]);
    }
  }

  /**
   * The result shown after any events is decided by the last write: `None`
   * for a clear, the settled call's field or apology for a settle; with no
   * write at all it is the result the page started with.
   */
  lemma ResultIsLastWrite(c: Config, s: State, events: seq<Event>)
    ensures (forall k :: 0 <= k < |events| ==> !Writes(c, s, events, k)) ==> Run(c, s, events).result == s.result
    ensures forall k :: 0 <= k < |events| && Writes(c, s, events, k)
                        && (forall j :: k < j < |events| ==> !Writes(c, s, events, j))
                        ==> Run(c, s, events).result == Written(c, events[k])
  {
    if forall k :: 0 <= k < |events| ==> !Writes(c, s, events, k) {
      NoWriteKeepsResult(c, s, events);
    }
    forall k | 0 <= k < |events| && Writes(c, s, events, k) && (forall j :: k < j < |events| ==> !Writes(c, s, events, j))
      ensures Run(c, s, events).result == Written(c, events[k])
    {
      LastWriteDecides(c, s, events, k);
    }
  }

  /** A result only ever comes from a settled call: without one, a page that showed nothing still shows nothing. */
  lemma {:induction false} ResultNeedsSettle(c: Config, s: State, events: seq<Event>)
    requires s.result.None?
    requires forall i :: 0 <= i < |events| ==> !events[i].Settle?
    ensures Run(c, s, events).result.None?
    decreases |events|
  {
    if |events| > 0 {
      var prefix := events[..|events| - 1];
      assert forall i :: 0 <= i < |prefix| ==> prefix[i] == events[i];
      ResultNeedsSettle(c, s, prefix);
    }
  }
}

=== FILE: transcript.dfy ===
/**
 * The message list of the two chat pages: the `Message` record, the
 * welcome seeding effect, and the shape an append-only, one-reply-per-send
 * transcript keeps.
 */
module Transcript {
  import opened Options
  import opened Files

  datatype Role = User | Assistant

  /**
   * One message. `id` is a caller-supplied clock reading (or "welcome");
   * `attachments` is present only on a chat user message sent with a file.
   */
  datatype Message = Message(id: string, content: string, role: Role, attachments: Option<seq<Attachment>>)

  const WelcomeId: string := "welcome"

  /** What `analyzeText` returns from its own `catch`, on both chat pages. */
  const TextApology: string := "Sorry, I couldn't analyze that text. Please try again."
  /** The outer `catch` of both chat pages' send handlers, which no error reaches. */
  const GenericApology: string := "Sorry, something went wrong. Please try again."

  function WelcomeMessage(text: string): Message {
    Message(WelcomeId, text, Assistant, None)
  }

  /** The mount effect: an empty list receives the welcome message; any other list is kept as it is. */
  function Seed(messages: seq<Message>, welcomeText: string): (r: seq<Message>)
    ensures |messages| == 0 ==> |r| == 1 && r[0].id == WelcomeId && r[0].role == Assistant
                                && r[0].content == welcomeText && r[0].attachments.None?
    ensures |messages| > 0 ==> r == messages
    ensures messages <= r
  {
    if |messages| == 0 then [WelcomeMessage(welcomeText)] else messages
  }

  /** Seeding twice is seeding once. */
  lemma SeedIdempotent(messages: seq<Message>, welcomeText: string)
    ensures Seed(Seed(messages, welcomeText), welcomeText) == Seed(messages, welcomeText)
  {
  }

  /** The role due at position `i` of a transcript that starts with the welcome. */
  function RoleAt(i: nat): Role {
    if i % 2 == 0 then Assistant else User
  }

  /** Consecutive positions are due different roles. */
  lemma NextRole(i: nat)
    ensures RoleAt(i + 1) != RoleAt(i)
  {
  }

  /** Even positions are assistant messages, odd positions user messages, starting with the welcome. */
  predicate Alternating(messages: seq<Message>) {
    forall i :: 0 <= i < |messages| ==> messages[i].role == RoleAt(i)
  }

  /** The number of messages with the given role. */
  function CountRole(messages: seq<Message>, role: Role): (n: nat)
    ensures n <= |messages|
    decreases |messages|
  {
    if |messages| == 0 then 0
    else CountRole(messages[..|messages| - 1], role) + (if messages[|messages| - 1].role == role then 1 else 0)
  }

  lemma CountRoleAppend(messages: seq<Message>, m: Message, role: Role)
    ensures CountRole(messages + [m], role) == CountRole(messages, role) + (if m.role == role then 1 else 0)
  {
    assert (messages + [m])[..|messages|] == messages;
  }

  /**
   * In an alternating transcript every user message but possibly the last
   * has its reply: the length is twice the number of user messages, plus one
   * when the transcript ends with an assistant message.
   */
  lemma {:induction false} AlternatingLength(messages: seq<Message>)
    requires Alternating(messages)
    ensures |messages| == 2 * CountRole(messages, User)
                         + (if |messages| > 0 && messages[|messages| - 1].role == Assistant then 1 else 0)
    decreases |messages|
  {
    if |messages| > 0 {
      var prefix := messages[..|messages| - 1];
      var last := messages[|messages| - 1];
      assert messages == prefix + [last];
      assert Alternating(prefix) by {
        forall i | 0 <= i < |prefix| ensures prefix[i].role == RoleAt(i) {
          assert prefix[i] == messages[i];
        }
      }
      AlternatingLength(prefix);
      CountRoleAppend(prefix, last, User);
      if |prefix| > 0 {
        NextRole(|prefix| - 1);
        assert prefix[|prefix| - 1].role != last.role;
      }
    }
  }

  /** Appending a message whose role fits the next position keeps a transcript alternating. */
  lemma AppendAlternating(messages: seq<Message>, m: Message)
    requires Alternating(messages)
    requires m.role == RoleAt(|messages|)
    ensures Alternating(messages + [m])
  {
    var r := messages + [m];
    forall i | 0 <= i < |r| ensures r[i].role == RoleAt(i) {
      if i < |messages| { assert r[i] == messages[i]; }
    }
  }

  /** No message carries attachments (the text-only chat). */
  predicate TextOnly(messages: seq<Message>) {
    forall i :: 0 <= i < |messages| ==> messages[i].attachments.None?
  }

  lemma AppendTextOnly(messages: seq<Message>, m: Message)
    requires TextOnly(messages) && m.attachments.None?
    ensures TextOnly(messages + [m])
  {
    var r := messages + [m];
    forall i | 0 <= i < |r| ensures r[i].attachments.None? {
      if i < |messages| { assert r[i] == messages[i]; }
    }
  }
}
